=== FILE: README.md ===
# Weighted-set volume parser

The workout logs (text files read line by line by `open_workout_file`) hold one set per
line, e.g. `Set 1 : 40 kg x 9`.
`calculate_weighted_set_volume` (notebooks/functions.py) turns such a line into the
set's volume, weight times reps, through a fixed chain of string operations:

1. split the line on `" x "`;
2. split the first piece on `":"`;
3. split the second piece of that on single spaces, and take index 1 as the weight;
4. convert the weight with `float`;
5. strip the second `" x "` piece and convert it with `int` as the rep count;
6. multiply.

This project models that function in Dafny and proves what it computes. It has five
modules:

- `Options` holds the optional value.
- `PyStr` holds the Python `str` operations the parser uses:
  - `isspace`, `find`, `split(sep)` and `strip()`;
  - stripping by either of two whitespace sets, `TextBlanks` (what `strip()` removes) and
    `NumeralBlanks` (what `int` and `float` skip around a numeral);
  - `Before` and `After`, the two halves of `partition`.
- `Numerals` holds the decimal numerals:
  - `int(...)`, and `float(...)` restricted to plain decimal notation;
  - `str(n)`;
  - the exact fixed-point `Decimal` used for the weight.
- `SetVolume` holds the parser, `WeightedSetVolume`, and its lemmas.
- `SetVolumeExamples` checks the parser on the concrete lines of the docstring and the
  comments, and on malformed lines.

Every index or conversion failure the Python raises on numerals of ordinary size
becomes a `Failure`. Huge numerals are the exception; see "Left out". The failures
are listed in the order the parser meets them:

- `ColonMissing`: `sets[1]`, when the clause has no colon.
- `WeightTokenMissing`: `weight[1]`, when there is no space between the first colon
  and the next colon or the end of the clause. For example, `a:b: 5 x 3` fails here.
- `WeightNotNumber`: `float`.
- `RepsSegmentMissing`: `parts[1]`, when the line has no `" x "`.
- `RepsNotInteger`: `int`.

The function is a Dafny `function`, so its result depends on the line alone. That is
the purity the Python function has: it reads and writes no state.

`WeightedSetVolume` keeps the Python's split-and-index form. `ReferenceVolume` states
the same parser field by field:

- in the clause before the first `" x "`, take the text between the first colon and
  the next colon (or the end of the clause);
- the weight is the word after the first space of that text;
- the rep text is what lies between the first and second `" x "`.

`MatchesReference` proves the two agree on every line.

Where the comments and the code disagree, the model follows the code:

- The comment on line 10 says the first piece of `Set 3 : 30 kg x 14\n` is
  `'Set 3 : 30 kg '`, with a trailing space. The separator `" x "` consumes that space,
  so the piece is `'Set 3 : 30 kg'`.
- For the same reason the text after the colon is `' 30 kg'`. Its space split is
  `['', '30', 'kg']`, not the four words the comment on line 14 gives.
- `SetLineSplits` states the true intermediate values. The weight the parser reads is
  the same either way.

Four behaviours of the function are easy to misread:

- It never looks at the unit. `Set 1 : 40 x 10` yields 400, as `UnitNotChecked` and
  `UnitlessWholeKilos` state.
- It splits the clause on single spaces, not on runs of whitespace. Two spaces after
  the colon leave an empty weight word, and `float('')` fails
  (`DoubleSpaceAfterColon`).
- `strip()` removes whitespace at both ends of the rep text, not only the trailing
  newline.
- `strip()` and the numeral conversions do not agree on what whitespace is. The
  separators U+001C..U+001F count as whitespace for `str.isspace`, so `strip()` removes
  them. `int` and `float` skip only ASCII tab, newline, vertical tab, form feed, carriage
  return and space, plus whitespace beyond ASCII. So `Set 1 : 40\x1c kg x 9` fails at
  `float` (`WeightWithSeparatorRejected`), while `Set 1 : 40 kg x 9\x1c` yields 360,
  because the rep text is stripped before `int` sees it.

## Model

| member | source | states |
|---|---|---|
| PyStr.Find | notebooks/functions.py:9 | the index returned is where the separator starts, no earlier index holds it, and there is none exactly when the separator does not occur |
| PyStr.Split | notebooks/functions.py:9 | the first piece is the text before the first separator; there is a second piece exactly when the separator occurs, and it is the text between the first and second occurrence |
| PyStr.SplitRejoins | notebooks/functions.py:9 | joining the pieces with the separator gives the text back, and no piece holds the separator |
| PyStr.SplitFirst | notebooks/functions.py:9 | when no separator starts inside `a`, splitting `a + sep + b` yields `a` followed by the pieces of `b` |
| PyStr.BeforeLacks | notebooks/functions.py:9 | the text before the first separator holds no separator |
| PyStr.StripBlanks | notebooks/functions.py:17-21 | stripping a whitespace set leaves text that is empty exactly when the input is all of that set, and otherwise neither begins nor ends with a member of it |
| PyStr.StripBlanksExact | notebooks/functions.py:17-21 | text that neither begins nor ends with a member of the set, surrounded by runs of that set, strips to itself |
| PyStr.Strip | notebooks/functions.py:19 | the stripped text is empty exactly when the input is all whitespace, and otherwise neither begins nor ends with whitespace |
| PyStr.StripExact | notebooks/functions.py:19 | text without whitespace at its ends, surrounded by any whitespace, strips to itself |
| PyStr.StripUnpadded | notebooks/functions.py:19 | text with no whitespace at either end is unchanged by `strip()` |
| Numerals.DigitsValueAppend | notebooks/functions.py:17 | reading digits `x` then digits `y` is the value of `x` shifted left by `|y|` places plus the value of `y` |
| Numerals.ParseIntRoundTrip | notebooks/functions.py:21 | `int` reads back every integer `str` writes, surrounded by any run of the whitespace `int` skips (U+001C..U+001F excluded) |
| Numerals.NatTextReads | notebooks/functions.py:21 | `int` reads the numeral of a natural number back as that number |
| Numerals.ParseIntRejectsWord | notebooks/functions.py:21 | an unpadded token that starts with neither a sign nor a digit makes `int` fail |
| Numerals.ParseInt | notebooks/functions.py:21 | `int` of text made only of the whitespace it skips fails, and text `int` accepts ends in a digit once that whitespace is stripped; `ParseIntRoundTrip` and `ParseIntRejectsWord` give its round trip with `str` and its rejection of words |
| Numerals.ParseDecimal | notebooks/functions.py:17 | `float` of text made only of the whitespace it skips, the empty weight word among it, fails; every numeral `int` accepts, `float` accepts with the same value; `ParseDecimalFraction` gives its reading of `W.F` |
| Numerals.NumeralThenSeparator | notebooks/functions.py:17-21 | a numeral followed by one of U+001C..U+001F is rejected by both `int` and `float`: neither skips those code points |
| Numerals.ParseDecimalWhole | notebooks/functions.py:17 | a whole number of kilos reads as exactly that number |
| Numerals.ParseDecimalFraction | notebooks/functions.py:17 | `W.F` reads as the fixed-point number whose units are the digits of `W` and `F` together, at `|F|` places |
| Numerals.FixedValue | notebooks/functions.py:17 | fixed-point units `W * 10^k + F` at `k` places are worth `W + F / 10^k` |
| Numerals.Scale | notebooks/functions.py:23 | the volume is worth exactly the weight's value times the reps |
| SetVolume.Convert | notebooks/functions.py:17-25 | there is a volume exactly when `float` accepts the weight, a rep piece exists and `int` accepts it once stripped, and the volume is then the weight scaled by those reps; a missing rep piece is the only cause of that failure; conversion never reports the index failures that come before it |
| SetVolume.WeightedSetVolume | notebooks/functions.py:7-25 | a clause with no colon fails at `sets[1]` whatever the reps; a line with no `" x "` never yields a volume; a volume implies both a colon and a rep piece |
| SetVolume.ReferenceVolume | notebooks/functions.py:9-21 | the field-by-field parser fails for want of a colon exactly when the clause before the first `" x "` has none, and yields a volume only when the line has a rep piece |
| SetVolume.MatchesReference | notebooks/functions.py:9-21 | split-and-index agrees on every line with the field-by-field definition (weight: the word after the first space between the first and second colon; reps: the text between the first and second `" x "`) |
| SetVolume.ShapedLine | notebooks/functions.py:9-21 | on a line `<label>: <weight> <unit> x <reps>`, the parser converts exactly that weight token and that rep text |
| SetVolume.UnitlessLine | notebooks/functions.py:9-21 | with the unit left out, `<label>: <weight> x <reps>` is read the same way: the unit is never looked at |
| SetVolume.NoRepsSeparator | notebooks/functions.py:9-19 | a line `<label>: <weight> <unit>` with no `" x "` reads its weight and then has no rep piece |
| SetVolume.NoColon | notebooks/functions.py:11-13 | a line without a colon fails at `sets[1]`, before the reps are read |
| SetVolume.ConvertRejectsReps | notebooks/functions.py:19-21 | a readable weight with a rep piece `int` rejects fails with the stripped rep text |
| SetVolume.ExtraSegment | notebooks/functions.py:9-19 | after an `x`-free clause and rep text, a second `" x "` and all after it change nothing |
| SetVolume.OnlyFirstRepsSegment | notebooks/functions.py:9-19 | every line with a `" x "` parses as its text up to the second `" x "` |
| SetVolume.SetLineSplits | notebooks/functions.py:9-15 | on `Set N : W kg x R`, the three splits give the clause without a trailing space plus the rep text, the label plus ` W kg`, and an empty word, `W` and `kg` |
| SetVolume.SetLineFields | notebooks/functions.py:9-21 | on `Set N : W kg x R` plus whitespace, the parser converts `W` and the rep text with its whitespace |
| SetVolume.RepsPieceReads | notebooks/functions.py:19-21 | a rep count followed by whitespace, a newline among it, strips to the count and reads as it |
| SetVolume.WellFormedWholeKilos | notebooks/functions.py:7-25 | a well-formed `Set N : W kg x R` line, with or without a trailing newline, yields exactly `W * R` |
| SetVolume.WellFormedFractionalKilos | notebooks/functions.py:15-25 | `Set N : W.F kg x R` yields the fixed-point weight `W.F` scaled by `R` |
| SetVolume.FractionalWeightValue | notebooks/functions.py:17-23 | the weight `W.F` read from a line is worth `W + F / 10^|F|` |
| SetVolume.UnitlessWholeKilos | notebooks/functions.py:9-25 | `Set N : W x R`, with no unit, still yields `W * R` |
| SetVolume.MissingRepsWholeKilos | notebooks/functions.py:9-19 | `Set N : W <unit>` with no `" x "` fails at `parts[1]` |
| SetVolume.ConvertWithoutReps | notebooks/functions.py:17-19 | a readable weight with no rep piece fails at `parts[1]` |
| SetVolume.RepsWordRejected | notebooks/functions.py:19-21 | `Set N : W kg x <word>` plus whitespace, where the word is not a numeral, fails at `int` with that word |
| SetVolume.ExtraSegmentWholeKilos | notebooks/functions.py:9-25 | `Set N : W kg x R x <anything>` still yields `W * R` |
| SetVolume.WeightWithSeparatorRejected | notebooks/functions.py:13-17 | `Set N : W<U+001C..U+001F> kg x R` plus whitespace fails at `float` with that weight token |
| SetVolume.DoubleSpaceAfterColon | notebooks/functions.py:13-17 | two spaces after the colon put an empty word where the weight belongs, so `float` fails whatever follows |
| SetVolumeExamples.DocstringExample | notebooks/functions.py:8 | the docstring's line `Set 1 : 40 kg x 9` has volume 360 |
| SetVolumeExamples.CommentedExample | notebooks/functions.py:9-21 | the commented line `Set 3 : 30 kg x 14\n` has volume 420; the newline is stripped from the reps |
| SetVolumeExamples.UnitNotChecked | notebooks/functions.py:7-25 | `Set 1 : 40 x 10` has volume 400: the function does not check the unit |
| SetVolumeExamples.SeparatorAfterWeight | notebooks/functions.py:15-17 | `Set 1 : 40\x1c kg x 9` fails at `float('40\x1c')` |
| SetVolumeExamples.SeparatorAfterReps | notebooks/functions.py:19-21 | `Set 1 : 40 kg x 9\x1c` has volume 360: `strip()` removes U+001C before `int` |
| SetVolumeExamples.MissingRepsSeparator | notebooks/functions.py:19 | `Set 1 : 40 kg\n` fails for want of a rep piece |
| SetVolumeExamples.MissingColon | notebooks/functions.py:13 | `Set 1 - 40 kg x nine` fails at `sets[1]` and never reaches the bad reps |
| SetVolumeExamples.MissingWeightToken | notebooks/functions.py:15 | `Set 1 :` fails at `weight[1]` |
| SetVolumeExamples.RepsNotANumber | notebooks/functions.py:21 | `Set 1 : 40 kg x nine\n` fails at `int` with `nine` |
| SetVolumeExamples.TwoSpacesAfterColon | notebooks/functions.py:13-17 | `Set 1 :  40 kg x 9` fails at `float('')` |
| SetVolumeExamples.SecondSeparatorIgnored | notebooks/functions.py:19 | `Set 1 : 40 kg x 9 x 3` has volume 360: the text after the second `" x "` is dropped |

## Left out

- `get_all_workout_files` (notebooks/functions.py:3-5) is a filesystem glob. It is I/O and is not modelled.
- `open_workout_file` (notebooks/functions.py:28-31) opens a file and reads its lines. It is I/O and is not modelled.
- The weight is an exact fixed-point `Decimal`, not an IEEE-754 double. The model does not round in `float(kilos)` or in `kilos * reps`. It also returns an exact volume where Python's doubles overflow: a weight numeral past the double range becomes `inf`, and `kilos * reps` raises `OverflowError` when `reps` is past the double range (10**400, say).
- Numerals.ParseDecimal: accepts only an optional sign and digits with at most one decimal point. Python's `float` also accepts exponents, `inf`/`nan`, `_` between digits and non-ASCII digits; the model rejects those.
- Numerals.ParseInt: accepts only an optional sign and ASCII digits. Python's `int` also accepts `_` between digits and non-ASCII digits; the model rejects those. Python 3.11 and later raise `ValueError` for a numeral of more than 4300 digits; the model accepts numerals of any length, so `WellFormedWholeKilos` yields a volume there too.
- Strings are sequences of code points. `isspace` is the list of code points Python treats as whitespace, and `NumeralBlanks` is that list without U+001C..U+001F; no Unicode normalisation is modelled.
- The rest of the logging pipeline is not modelled. It lies outside this function:
  - any caller-side choice of which lines reach this function (not in functions.py);
  - bodyweight sets;
  - exercise blocks, dates and aggregation across files.
- `split` with an empty separator, which raises in Python, is excluded by `Split`'s precondition. The parser only splits on `" x "`, `":"` and `" "`.

=== FILE: numerals.dfy ===
/** Decimal numerals: the `int(...)` and `float(...)` conversions the set parser applies
    to its weight and rep tokens, with the weight kept as an exact fixed-point number
    rather than a binary floating-point one. */
module Numerals {
  import opened Options
  import opened PyStr

  predicate IsDigit(c: char) {
    '0' <= c <= '9'
  }

  predicate AllDigits(s: string) {
    forall k | 0 <= k < |s| :: IsDigit(s[k])
  }

  function DigitValue(c: char): nat
    requires IsDigit(c)
  {
    c as int - '0' as int
  }

  function DigitChar(d: nat): (c: char)
    requires d < 10
    ensures IsDigit(c) && DigitValue(c) == d
  {
    (d + '0' as int) as char
  }

  /** `10^k`, the denominator of a fixed-point number; never zero, so `Value` is defined. */
  function Pow10(k: nat): (r: nat)
    ensures r >= 1
  {
    if k == 0 then 1 else 10 * Pow10(k - 1)
  }

  /** The number a string of decimal digits denotes, most significant digit first. */
  function DigitsValue(s: string): nat
    requires AllDigits(s)
    decreases |s|
  {
    if |s| == 0 then 0 else DigitsValue(s[..|s| - 1]) * 10 + DigitValue(s[|s| - 1])
  }

  /** Python's `str(n)` for a natural number: its shortest decimal numeral. */
  function NatText(n: nat): (r: string)
    ensures |r| >= 1 && AllDigits(r)
    ensures DigitsValue(r) == n
    ensures r[0] == '0' ==> n == 0
    decreases n
  {
    if n < 10 then [DigitChar(n)]
    else
      var r := NatText(n / 10) + [DigitChar(n % 10)];
      assert r[..|r| - 1] == NatText(n / 10);
      r
  }

  /** Reading digits `x` then digits `y` shifts the value of `x` left by `|y|` places. */
  lemma {:induction false} DigitsValueAppend(x: string, y: string)
    requires AllDigits(x) && AllDigits(y)
    ensures AllDigits(x + y)
    ensures DigitsValue(x + y) == DigitsValue(x) * Pow10(|y|) + DigitsValue(y)
    decreases |y|
  {
    if |y| == 0 {
      assert x + y == x;
    } else {
      var y' := y[..|y| - 1];
      var d := DigitValue(y[|y| - 1]);
      assert (x + y)[..|x + y| - 1] == x + y';
      assert (x + y)[|x + y| - 1] == y[|y| - 1];
      DigitsValueAppend(x, y');
      assert DigitsValue(x + y) == DigitsValue(x + y') * 10 + d;
      assert DigitsValue(y) == DigitsValue(y') * 10 + d;
      assert Pow10(|y|) == 10 * Pow10(|y'|);
      ShiftDigit(DigitsValue(x), Pow10(|y'|), DigitsValue(y'), d);
    }
  }

  lemma ShiftDigit(a: int, p: int, b: int, d: int)
    ensures (a * p + b) * 10 + d == a * (10 * p) + (b * 10 + d)
  {
  }

  function Signed(negative: bool, magnitude: nat): int {
    if negative then -(magnitude as int) else magnitude
  }

  /** A leading `+` or `-` (whether it was `-`), and the text after it. */
  function TakeSign(t: string): (bool, string) {
    if |t| > 0 && (t[0] == '+' || t[0] == '-') then (t[0] == '-', t[1..]) else (false, t)
  }

  /** Python's `int(s)` on a string: surrounding `NumeralBlanks` are ignored, then an
      optional sign and one or more decimal digits; anything else raises
      `ValueError`, modelled as `None`. Blank text fails; what succeeds ends in a digit
      once stripped. */
  function ParseInt(s: string): (r: Option<int>)
    ensures AllBlank(NumeralBlanks, s) ==> r.None?
    ensures r.Some? ==> var t := StripBlanks(NumeralBlanks, s); |t| >= 1 && IsDigit(t[|t| - 1])
  {
    var t := StripBlanks(NumeralBlanks, s);
    var signed := TakeSign(t);
    var negative, body := signed.0, signed.1;
    assert |body| > 0 ==> body[|body| - 1] == t[|t| - 1];
    if |body| > 0 && AllDigits(body) then Some(Signed(negative, DigitsValue(body))) else None
  }

  /** Python's `str(i)` for an integer. */
  function IntText(i: int): string {
    if i < 0 then "-" + NatText(-i) else NatText(i)
  }

  lemma DigitNotSpace(c: char)
    requires IsDigit(c) || c == '-' || c == '.'
    ensures !IsSpace(c)
  {
  }

  /** What `str` writes for an integer begins with its sign or a digit and ends with a
      digit: nothing `strip()` would remove. */
  lemma IntTextUnpadded(i: int)
    ensures |IntText(i)| >= 1
    ensures !IsSpace(IntText(i)[0]) && !IsSpace(IntText(i)[|IntText(i)| - 1])
    ensures TakeSign(IntText(i)) == (i < 0, NatText(if i < 0 then -i else i))
  {
    var t := IntText(i);
    var digits := NatText(if i < 0 then -i else i);
    DigitNotSpace(t[0]);
    DigitNotSpace(t[|t| - 1]);
    if i < 0 {
      assert t[1..] == digits;
    }
  }

  /** `int` reads back what `str` writes, whatever `NumeralBlanks` surround it. */
  lemma ParseIntRoundTrip(i: int, lead: string, trail: string)
    requires AllBlank(NumeralBlanks, lead) && AllBlank(NumeralBlanks, trail)
    ensures ParseInt(lead + IntText(i) + trail) == Some(i)
  {
    IntTextUnpadded(i);
    StripBlanksExact(NumeralBlanks, lead, IntText(i), trail);
  }

  /** `int` reads `str(n)` back as `n`. */
  lemma NatTextReads(n: nat)
    ensures ParseInt(NatText(n)) == Some(n)
  {
    var t := NatText(n);
    Unpadded(t);
  }

  // ---------------------------------------------------------------- fixed point

  /** An exact decimal number `units / 10^places`, the form a written weight such as
      `22.5` (units 225, places 1) takes. */
  datatype Decimal = Decimal(units: int, places: nat)

  function Value(d: Decimal): real {
    d.units as real / Pow10(d.places) as real
  }

  /** Multiplying a weight by a whole number of reps: Python's `kilos * reps`, exact.
      The volume is worth exactly the weight's value times the reps. */
  function Scale(d: Decimal, n: int): (r: Decimal)
    ensures Value(r) == Value(d) * n as real
  {
    var p := Pow10(d.places) as real;
    assert (d.units * n) as real == d.units as real * n as real;
    assert (d.units as real * n as real) / p == (d.units as real / p) * n as real;
    Decimal(d.units * n, d.places)
  }

  /** Python's `float(s)`, restricted to plain decimal notation: surrounding
      `NumeralBlanks` are ignored, then an optional sign and digits with at most one decimal point,
      at least one digit in all (`40`, `22.5`, `.5`, `5.`). Anything else raises
      `ValueError`, modelled as `None`. Blank text fails, and every numeral `int`
      accepts, `float` accepts too, with the same value. */
  function ParseDecimal(s: string): (r: Option<Decimal>)
    ensures AllBlank(NumeralBlanks, s) ==> r.None?
    ensures ParseInt(s).Some? ==> r == Some(Decimal(ParseInt(s).value, 0))
  {
    var signed := TakeSign(StripBlanks(NumeralBlanks, s));
    assert AllBlank(NumeralBlanks, s) ==> signed.1 == [];
    DigitsLackPointIfDigits(signed.1);
    ReadDecimal(signed.0, signed.1)
  }

  /** The digits and point left once `float` has removed blanks and sign: at least one
      digit, at most one point, nothing else. */
  function ReadDecimal(negative: bool, body: string): (r: Option<Decimal>)
    ensures body == [] ==> r.None?
    ensures |body| > 0 && AllDigits(body) && Lacks(body, ".")
        ==> r == Some(Decimal(Signed(negative, DigitsValue(body)), 0))
  {
    match Find(body, ".")
    case None =>
      if |body| > 0 && AllDigits(body) then Some(Decimal(Signed(negative, DigitsValue(body)), 0))
      else None
    case Some(i) =>
      var digits := body[..i] + body[i + 1..];
      if |digits| > 0 && AllDigits(digits) then
        Some(Decimal(Signed(negative, DigitsValue(digits)), |body| - (i + 1)))
      else None
  }

  /** A digit string holds no decimal point. */
  lemma DigitsLackPoint(s: string)
    requires AllDigits(s)
    ensures Lacks(s, ".")
  {
    LacksChar(s, '.');
    assert "." == ['.'];
  }

  /** `DigitsLackPoint` for text that may or may not be digits. */
  lemma DigitsLackPointIfDigits(s: string)
    ensures AllDigits(s) ==> Lacks(s, ".")
  {
    if AllDigits(s) {
      DigitsLackPoint(s);
    }
  }

  /** A whole number of kilos written as `str(n)` reads as exactly `n`. */
  lemma ParseDecimalWhole(n: nat)
    ensures ParseDecimal(NatText(n)) == Some(Decimal(n, 0))
  {
    var s := NatText(n);
    assert [] + IntText(n) + [] == s;
    ParseIntRoundTrip(n, [], []);
  }

  /** Text that begins with a digit and ends with a digit or point is its own `strip()`
      and carries no sign. */
  lemma Unpadded(s: string)
    requires |s| >= 1 && IsDigit(s[0]) && (IsDigit(s[|s| - 1]) || s[|s| - 1] == '.')
    ensures TakeSign(StripBlanks(NumeralBlanks, s)) == (false, s)
  {
    DigitNotSpace(s[0]);
    DigitNotSpace(s[|s| - 1]);
    StripUnpadded(NumeralBlanks, s);
  }

  /** The point splits `W.F` into its whole and fractional digits. */
  lemma PointSplits(whole: string, fraction: string)
    requires AllDigits(whole)
    ensures Find(whole + "." + fraction, ".") == Some(|whole|)
    ensures (whole + "." + fraction)[..|whole|] == whole
    ensures (whole + "." + fraction)[|whole| + 1..] == fraction
  {
    DigitsLackPoint(whole);
    assert whole + "."[..0] == whole;
    SplitFirst(whole, ".", fraction);
  }

  /** `float` reads digits, a point and digits as the fixed-point number they spell. */
  lemma ParseDecimalPoint(whole: string, fraction: string, units: nat)
    requires |whole| >= 1 && AllDigits(whole) && AllDigits(fraction)
    requires AllDigits(whole + fraction) && units == DigitsValue(whole + fraction)
    ensures ParseDecimal(whole + "." + fraction) == Some(Decimal(units, |fraction|))
  {
    var s := whole + "." + fraction;
    assert s[0] == whole[0];
    assert s[|s| - 1] == if |fraction| == 0 then '.' else fraction[|fraction| - 1];
    Unpadded(s);
    PointSplits(whole, fraction);
    assert s[..|whole|] + s[|whole| + 1..] == whole + fraction;
    ParseDecimalAtPoint(s, |whole|, units, |fraction|);
  }

  /** Unsigned, unpadded text with its first point at `i` reads as the digits around
      the point, at as many places as follow it. */
  lemma ParseDecimalAtPoint(s: string, i: nat, units: nat, places: nat)
    requires TakeSign(StripBlanks(NumeralBlanks, s)) == (false, s)
    requires Find(s, ".") == Some(i) && i < |s|
    requires AllDigits(s[..i] + s[i + 1..]) && |s[..i] + s[i + 1..]| > 0
    requires units == DigitsValue(s[..i] + s[i + 1..]) && places == |s| - (i + 1)
    ensures ParseDecimal(s) == Some(Decimal(units, places))
  {
    ReadDecimalAtPoint(s, i, units, places);
  }

  lemma ReadDecimalAtPoint(s: string, i: nat, units: nat, places: nat)
    requires Find(s, ".") == Some(i) && i < |s|
    requires AllDigits(s[..i] + s[i + 1..]) && |s[..i] + s[i + 1..]| > 0
    requires units == DigitsValue(s[..i] + s[i + 1..]) && places == |s| - (i + 1)
    ensures ReadDecimal(false, s) == Some(Decimal(units, places))
  {
  }

  lemma DivideSum(a: real, b: real, p: real)
    requires p > 0.0
    ensures (a * p + b) / p == a + b / p
  {
    assert (a * p + b) / p == (a * p) / p + b / p;
    assert (a * p) / p == a;
  }

  lemma CastSum(a: nat, p: nat, b: nat)
    ensures (a * p + b) as real == a as real * p as real + b as real
  {
  }

  /** Fixed-point units `W * 10^k + F` at `k` places stand for `W + F / 10^k`. */
  lemma FixedValue(whole: nat, fraction: nat, places: nat)
    ensures Value(Decimal(whole * Pow10(places) + fraction, places))
         == whole as real + fraction as real / Pow10(places) as real
  {
    var p := Pow10(places);
    CastSum(whole, p, fraction);
    DivideSum(whole as real, fraction as real, p as real);
  }

  /** A weight written `W.F`, digits either side of the point, reads as the
      fixed-point number whose units are the digits of `W` and `F` together, at
      `|F|` places; `DigitsValueAppend` and `FixedValue` say that number is
      `W + F / 10^|F|`. */
  lemma ParseDecimalFraction(whole: string, fraction: string)
    requires |whole| >= 1 && AllDigits(whole) && AllDigits(fraction)
    ensures AllDigits(whole + fraction)
    ensures ParseDecimal(whole + "." + fraction)
         == Some(Decimal(DigitsValue(whole + fraction), |fraction|))
  {
    assert AllDigits(whole + fraction);
    ParseDecimalPoint(whole, fraction, DigitsValue(whole + fraction));
  }

  /** Unpadded text that starts with neither a sign nor a digit (a word such as
      `nine`) makes `int` raise `ValueError`. */
  lemma ParseIntRejectsWord(t: string)
    requires |t| >= 1 && !IsSpace(t[0]) && !IsSpace(t[|t| - 1])
    requires !IsDigit(t[0]) && t[0] != '+' && t[0] != '-'
    ensures ParseInt(t) == None
  {
    assert TakeSign(StripBlanks(NumeralBlanks, t)) == (false, t) by {
      StripUnpadded(NumeralBlanks, t);
    }
  }

  /** `int` and `float` do not skip the separators U+001C..U+001F, though
      `str.isspace()` counts them as whitespace: a numeral followed by one raises
      `ValueError` in both. */
  lemma NumeralThenSeparator(n: nat, c: char)
    requires 0x1C <= c as int <= 0x1F
    ensures ParseInt(NatText(n) + [c]) == None
    ensures ParseDecimal(NatText(n) + [c]) == None
  {
    var t := NatText(n) + [c];
    assert t[0] == NatText(n)[0] && t[|t| - 1] == c;
    DigitNotSpace(t[0]);
    StripUnpadded(NumeralBlanks, t);
    assert !IsDigit(t[|t| - 1]);
    LacksChar(t, '.');
    assert "." == ['.'];
  }
}

=== FILE: options.dfy ===
/** The optional value used wherever a Python operation may come back empty-handed
    (`str.find` returning -1, `int(...)` or `float(...)` raising `ValueError`). */
module Options {

  datatype Option<+T> = None | Some(value: T)
}

=== FILE: pystr.dfy ===
/** The handful of Python `str` operations the set parser is built from:
    `isspace`, `find`, `split(sep)`, `strip()`, and `partition` (here `Before`/`After`),
    over strings as sequences of code points. */
module PyStr {
  import opened Options

  /** Python's `str.isspace()` for one code point: the characters `str.strip()` and
      `str.split()` with no argument treat as whitespace. */
  predicate IsSpace(c: char) {
    var n := c as int;
    || (0x09 <= n <= 0x0D)
    || (0x1C <= n <= 0x20)
    || n == 0x85 || n == 0xA0 || n == 0x1680
    || (0x2000 <= n <= 0x200A)
    || n == 0x2028 || n == 0x2029 || n == 0x202F || n == 0x205F || n == 0x3000
  }

  predicate AllSpace(s: string) {
    forall k | 0 <= k < |s| :: IsSpace(s[k])
  }

  /** `sep` starts at index `i` of `s`. */
  predicate OccursAt(s: string, sep: string, i: nat) {
    i + |sep| <= |s| && s[i..i + |sep|] == sep
  }

  /** No occurrence of `sep` starts anywhere in `s`. */
  predicate Lacks(s: string, sep: string) {
    forall i | 0 <= i <= |s| :: !OccursAt(s, sep, i)
  }

  // ---------------------------------------------------------------- find

  function FindFrom(s: string, sep: string, from: nat): (r: Option<nat>)
    requires from <= |s|
    ensures r.Some? ==> from <= r.value && OccursAt(s, sep, r.value)
    ensures r.Some? ==> forall j | from <= j < r.value :: !OccursAt(s, sep, j)
    ensures r.None? ==> forall j | from <= j <= |s| :: !OccursAt(s, sep, j)
    decreases |s| - from
  {
    if from + |sep| > |s| then None
    else if s[from..from + |sep|] == sep then Some(from)
    else FindFrom(s, sep, from + 1)
  }

  /** Python's `s.find(sep)`: the leftmost index where `sep` starts, `None` for -1. */
  function Find(s: string, sep: string): (r: Option<nat>)
    ensures r.Some? ==> OccursAt(s, sep, r.value)
    ensures r.Some? ==> forall j | 0 <= j < r.value :: !OccursAt(s, sep, j)
    ensures r.None? <==> Lacks(s, sep)
  {
    FindFrom(s, sep, 0)
  }

  /** The text before the first `sep` (all of `s` when there is none): the head of
      Python's `s.partition(sep)`. */
  function Before(s: string, sep: string): (r: string)
    ensures |r| <= |s| && r == s[..|r|]
    ensures Lacks(s, sep) ==> r == s
  {
    match Find(s, sep)
    case None => s
    case Some(i) => s[..i]
  }

  /** The text after the first `sep`, or `None` when `sep` does not occur: the tail of
      Python's `s.partition(sep)`, with "not found" kept apart from "found at the end". */
  function After(s: string, sep: string): Option<string> {
    match Find(s, sep)
    case None => None
    case Some(i) => Some(s[i + |sep|..])
  }

  // ---------------------------------------------------------------- split

  /** Python's `sep.join(pieces)`. */
  function Join(pieces: seq<string>, sep: string): string
    decreases |pieces|
  {
    if |pieces| == 0 then ""
    else if |pieces| == 1 then pieces[0]
    else pieces[0] + sep + Join(pieces[1..], sep)
  }

  /** A window of a slice is the same window of the whole string. */
  lemma OccursAtSlice(s: string, sep: string, lo: nat, hi: nat, j: nat)
    requires lo <= hi <= |s|
    ensures OccursAt(s[lo..hi], sep, j) <==> j + |sep| <= hi - lo && OccursAt(s, sep, lo + j)
  {
    if j + |sep| <= hi - lo {
      var w := s[lo..hi][j..j + |sep|];
      var v := s[lo + j..lo + j + |sep|];
      assert |w| == |v|;
      assert forall k | 0 <= k < |w| :: w[k] == s[lo + j + k] == v[k];
      assert w == v;
    }
  }

  /** Cutting a string at two points and gluing the three parts back gives it again. */
  lemma CutTwice(s: string, i: nat, j: nat)
    requires i <= j <= |s|
    ensures s == s[..i] + s[i..j] + s[j..]
  {
  }

  /** Python's `s.split(sep)` for a non-empty `sep` (Python raises `ValueError` on an
      empty one): the pieces between the non-overlapping occurrences of `sep`,
      scanning from the left. `SplitRejoins` states that the pieces joined by `sep`
      give `s` back and that none of them holds `sep`. */
  function Split(s: string, sep: string): (r: seq<string>)
    requires |sep| > 0
    ensures |r| >= 1
    ensures r[0] == Before(s, sep)
    ensures |r| >= 2 <==> After(s, sep).Some?
    ensures After(s, sep).Some? ==> r[1] == Before(After(s, sep).value, sep)
    decreases |s|
  {
    match Find(s, sep)
    case None => [s]
    case Some(i) => [s[..i]] + Split(s[i + |sep|..], sep)
  }

  /** One step of `Split`: the text before the first `sep`, then the pieces of the rest. */
  lemma SplitOnce(s: string, sep: string, i: nat)
    requires |sep| > 0 && Find(s, sep) == Some(i)
    ensures Split(s, sep) == [s[..i]] + Split(s[i + |sep|..], sep)
  {
  }

  lemma DropHead(x: string, tail: seq<string>)
    ensures ([x] + tail)[0] == x && ([x] + tail)[1..] == tail
  {
  }

  /** The partner of `Split`: joining the pieces with `sep` restores the text, and no
      piece holds `sep`. */
  lemma {:induction false} SplitRejoins(s: string, sep: string)
    requires |sep| > 0
    ensures Join(Split(s, sep), sep) == s
    ensures forall k | 0 <= k < |Split(s, sep)| :: Lacks(Split(s, sep)[k], sep)
    decreases |s|
  {
    match Find(s, sep)
    case None =>
    case Some(i) =>
      var rest := s[i + |sep|..];
      var r, tail := Split(s, sep), Split(rest, sep);
      SplitRejoins(rest, sep);
      BeforeLacks(s, sep);
      SplitOnce(s, sep, i);
      DropHead(s[..i], tail);
      assert Join(r, sep) == s[..i] + sep + Join(tail, sep);
      CutTwice(s, i, i + |sep|);
      forall k | 1 <= k < |r|
        ensures Lacks(r[k], sep)
      {
        assert r[k] == tail[k - 1];
      }
  }

  /** When no occurrence of `sep` starts inside `a` (not even one running into the
      `sep` that follows), splitting `a + sep + b` yields `a` and then the pieces of `b`. */
  lemma {:induction false} SplitFirst(a: string, sep: string, b: string)
    requires |sep| > 0
    requires Lacks(a + sep[..|sep| - 1], sep)
    ensures Find(a + sep + b, sep) == Some(|a|)
    ensures Before(a + sep + b, sep) == a
    ensures After(a + sep + b, sep) == Some(b)
    ensures Split(a + sep + b, sep) == [a] + Split(b, sep)
  {
    var s := a + sep + b;
    var t := a + sep[..|sep| - 1];
    assert t == s[..|t|];
    assert OccursAt(s, sep, |a|) by {
      assert s[|a|..|a| + |sep|] == sep;
    }
    forall j | 0 <= j < |a|
      ensures !OccursAt(s, sep, j)
    {
      OccursAtSlice(s, sep, 0, |t|, j);
    }
    var f := Find(s, sep);
    assert f.Some?;
    assert f.value <= |a|;
    assert !(f.value < |a|);
    assert s[..|a|] == a;
    assert s[|a| + |sep|..] == b;
  }

  /** A single-character separator occurs exactly where that character does. */
  lemma LacksChar(s: string, c: char)
    ensures Lacks(s, [c]) <==> c !in s
  {
    if c in s {
      var k :| 0 <= k < |s| && s[k] == c;
      assert OccursAt(s, [c], k) by {
        assert s[k..k + 1] == [c];
      }
    } else {
      forall i | 0 <= i <= |s|
        ensures !OccursAt(s, [c], i)
      {
        if i + 1 <= |s| {
          assert s[i..i + 1][0] == s[i];
        }
      }
    }
  }

  /** Text free of `x` holds no `" x "`, even one that would run into a `" x "` after it. */
  lemma XFreeHoldsNoTimes(a: string)
    requires 'x' !in a
    ensures Lacks(a + " x", " x ")
  {
    var t := a + " x";
    forall i | 0 <= i <= |t|
      ensures !OccursAt(t, " x ", i)
    {
      if i + 3 <= |t| {
        if i + 1 < |a| {
          assert t[i + 1] == a[i + 1];
        }
        assert t[i..i + 3][1] == t[i + 1] != 'x';
      }
    }
  }

  /** When `sep` does not start before index `n`, the text before it keeps the first
      `n` characters of `s`. */
  lemma BeforeKeepsPrefix(s: string, sep: string, n: nat)
    requires n <= |s|
    requires forall j | 0 <= j < n :: !OccursAt(s, sep, j)
    ensures |Before(s, sep)| >= n
  {
  }

  /** The text before the first `sep` holds no `sep`. */
  lemma BeforeLacks(s: string, sep: string)
    requires |sep| > 0
    ensures Lacks(Before(s, sep), sep)
  {
    match Find(s, sep)
    case None =>
    case Some(i) =>
      forall j | 0 <= j <= i
        ensures !OccursAt(s[..i], sep, j)
      {
        OccursAtSlice(s, sep, 0, i, j);
      }
  }

  /** Text that starts with `sep` has nothing before it. */
  lemma BeforeAtStart(s: string, sep: string)
    requires OccursAt(s, sep, 0)
    ensures Before(s, sep) == []
  {
  }

  /** Splitting text that lacks `sep` gives that text back as the only piece. */
  lemma SplitWhole(s: string, sep: string)
    requires |sep| > 0
    requires Lacks(s, sep)
    ensures Split(s, sep) == [s]
  {
  }

  // ---------------------------------------------------------------- strip

  /** The two whitespace sets Python strips. `TextBlanks` is `str.isspace()`, what
      `str.strip()` removes. `NumeralBlanks` is what `int()` and `float()` skip around
      a numeral: the ASCII whitespace `\t \n \v \f \r` and space, and the non-ASCII
      whitespace; it leaves out the separators U+001C..U+001F, which `str.isspace()`
      counts as whitespace. */
  datatype Blanks = TextBlanks | NumeralBlanks

  predicate IsBlank(blanks: Blanks, c: char) {
    IsSpace(c) && (blanks == NumeralBlanks ==> !(0x1C <= c as int <= 0x1F))
  }

  predicate AllBlank(blanks: Blanks, s: string) {
    forall k | 0 <= k < |s| :: IsBlank(blanks, s[k])
  }

  /** Python's `s.lstrip()`, over the given whitespace set. */
  function StripStart(blanks: Blanks, s: string): (r: string)
    ensures |r| <= |s| && r == s[|s| - |r|..]
    ensures AllBlank(blanks, s[..|s| - |r|])
    ensures r == [] || !IsBlank(blanks, r[0])
    decreases |s|
  {
    if |s| > 0 && IsBlank(blanks, s[0]) then
      var r := StripStart(blanks, s[1..]);
      assert s[1..][|s| - 1 - |r|..] == s[|s| - |r|..];
      assert AllBlank(blanks, s[..|s| - |r|]) by {
        var dropped := s[..|s| - |r|];
        assert forall k | 1 <= k < |dropped| :: dropped[k] == s[1..][..|s| - 1 - |r|][k - 1];
      }
      r
    else s
  }

  /** Python's `s.rstrip()`, over the given whitespace set. */
  function StripEnd(blanks: Blanks, s: string): (r: string)
    ensures |r| <= |s| && r == s[..|r|]
    ensures AllBlank(blanks, s[|r|..])
    ensures r == [] || !IsBlank(blanks, r[|r| - 1])
    decreases |s|
  {
    if |s| > 0 && IsBlank(blanks, s[|s| - 1]) then
      var r := StripEnd(blanks, s[..|s| - 1]);
      assert s[..|s| - 1][..|r|] == s[..|r|];
      assert AllBlank(blanks, s[|r|..]) by {
        var dropped := s[|r|..];
        assert forall k | 0 <= k < |dropped| - 1 :: dropped[k] == s[..|s| - 1][|r|..][k];
      }
      r
    else s
  }

  /** `s` without the leading and trailing characters of the given whitespace set. */
  function StripBlanks(blanks: Blanks, s: string): (r: string)
    ensures |r| <= |s|
    ensures r == [] <==> AllBlank(blanks, s)
    ensures r != [] ==> !IsBlank(blanks, r[0]) && !IsBlank(blanks, r[|r| - 1])
  {
    var t := StripStart(blanks, s);
    var r := StripEnd(blanks, t);
    assert t != [] ==> t[0] == s[|s| - |t|];
    assert r == [] ==> AllBlank(blanks, s) by {
      if r == [] {
        assert t[|r|..] == t;
        assert t == [];
        assert s[..|s| - |t|] == s;
      }
    }
    assert r != [] ==> r[0] == t[0];
    r
  }

  /** `str.isspace()` text is exactly the text of `TextBlanks`. */
  lemma AllSpaceIsTextBlank(s: string)
    ensures AllSpace(s) <==> AllBlank(TextBlanks, s)
  {
  }

  /** Python's `s.strip()`: `s` without its leading and trailing whitespace. */
  function Strip(s: string): (r: string)
    ensures |r| <= |s|
    ensures r == [] <==> AllSpace(s)
    ensures r != [] ==> !IsSpace(r[0]) && !IsSpace(r[|r| - 1])
  {
    AllSpaceIsTextBlank(s);
    StripBlanks(TextBlanks, s)
  }

  /** The partner of `StripBlanks`: whatever text sits between two runs of the
      whitespace set, with none of it at its own ends, is exactly what is left. */
  lemma StripBlanksExact(blanks: Blanks, a: string, t: string, b: string)
    requires AllBlank(blanks, a) && AllBlank(blanks, b)
    requires t == [] || (!IsBlank(blanks, t[0]) && !IsBlank(blanks, t[|t| - 1]))
    ensures StripBlanks(blanks, a + t + b) == t
  {
    if t == [] {
      assert a + t + b == a + b;
      AllBlankJoin(blanks, a, b);
    } else {
      assert a + t + b == a + (t + b);
      StripStartExact(blanks, a, t + b);
      StripEndExact(blanks, t, b);
    }
  }

  /** The partner of `Strip`: whatever non-blank text sits between two runs of
      whitespace is exactly what `Strip` returns. */
  lemma StripExact(a: string, t: string, b: string)
    requires AllSpace(a) && AllSpace(b)
    requires t == [] || (!IsSpace(t[0]) && !IsSpace(t[|t| - 1]))
    ensures Strip(a + t + b) == t
  {
    AllSpaceIsTextBlank(a);
    AllSpaceIsTextBlank(b);
    StripBlanksExact(TextBlanks, a, t, b);
  }

  /** `StripExact` with nothing before the text: trailing whitespace alone is removed. */
  lemma StripTrailing(t: string, b: string)
    requires AllSpace(b)
    requires t == [] || (!IsSpace(t[0]) && !IsSpace(t[|t| - 1]))
    ensures Strip(t + b) == t
  {
    assert [] + t + b == t + b;
    StripExact([], t, b);
  }

  lemma AllBlankJoin(blanks: Blanks, a: string, b: string)
    requires AllBlank(blanks, a) && AllBlank(blanks, b)
    ensures AllBlank(blanks, a + b)
  {
    assert forall k | 0 <= k < |a + b| :: (a + b)[k] == if k < |a| then a[k] else b[k - |a|];
  }

  lemma {:induction false} StripStartExact(blanks: Blanks, a: string, u: string)
    requires AllBlank(blanks, a)
    requires u == [] || !IsBlank(blanks, u[0])
    ensures StripStart(blanks, a + u) == u
    decreases |a|
  {
    if |a| > 0 {
      assert (a + u)[1..] == a[1..] + u;
      StripStartExact(blanks, a[1..], u);
    } else {
      assert a + u == u;
    }
  }

  lemma {:induction false} StripEndExact(blanks: Blanks, u: string, b: string)
    requires AllBlank(blanks, b)
    requires u == [] || !IsBlank(blanks, u[|u| - 1])
    ensures StripEnd(blanks, u + b) == u
    decreases |b|
  {
    if |b| > 0 {
      assert (u + b)[..|u + b| - 1] == u + b[..|b| - 1];
      StripEndExact(blanks, u, b[..|b| - 1]);
    } else {
      assert u + b == u;
    }
  }

  /** Text with no whitespace of the set at either end is left as it is. */
  lemma StripUnpadded(blanks: Blanks, s: string)
    requires s == [] || (!IsBlank(blanks, s[0]) && !IsBlank(blanks, s[|s| - 1]))
    ensures StripBlanks(blanks, s) == s
  {
    StripBlanksExact(blanks, [], s, []);
    assert [] + s + [] == s;
  }
}

=== FILE: set_volume.dfy ===
/** The weighted-set line parser of the workout notebooks: a log line such as
    `Set 1 : 40 kg x 9` becomes the set's volume, weight times reps, by a fixed chain of
    splits. On numerals of ordinary size, every place the Python raises `IndexError` or
    `ValueError` is a `Failure`. */
module SetVolume {
  import opened Options
  import opened PyStr
  import opened Numerals

  /** Why a line yields no volume, in the order the parser runs into them. */
  datatype Failure =
    | ColonMissing              // `sets[1]` raises IndexError: no ':' before the first " x "
    | WeightTokenMissing        // `weight[1]` raises IndexError: no ' ' between that colon
                                // and the next colon or the clause's end
    | WeightNotNumber(token: string)  // `float(kilos)` raises ValueError
    | RepsSegmentMissing        // `parts[1]` raises IndexError: the line holds no " x "
    | RepsNotInteger(text: string)    // `int(reps)` raises ValueError

  datatype Result<+T> = Ok(value: T) | Err(failure: Failure)

  /** The separator between the weight clause and the rep count. */
  const Times: string := " x "

  /** The conversions that finish the parse: `float` of the weight token first, then
      the rep piece (absent when the line has no `" x "`) stripped and read by `int`,
      then the product. */
  function Convert(kilos: string, repsPiece: Option<string>): (r: Result<Decimal>)
    ensures r.Ok? ==> repsPiece.Some?
    ensures r == Err(RepsSegmentMissing) ==> repsPiece.None?
    ensures r != Err(ColonMissing) && r != Err(WeightTokenMissing)
    ensures r.Ok? <==> ParseDecimal(kilos).Some? && repsPiece.Some?
                       && ParseInt(Strip(repsPiece.value)).Some?
    ensures r.Ok? ==> r == Ok(Scale(ParseDecimal(kilos).value, ParseInt(Strip(repsPiece.value)).value))
  {
    match ParseDecimal(kilos)
    case None => Err(WeightNotNumber(kilos))
    case Some(w) =>
      match repsPiece
      case None => Err(RepsSegmentMissing)
      case Some(piece) =>
        var reps := Strip(piece);
        match ParseInt(reps)
        case None => Err(RepsNotInteger(reps))
        case Some(n) => Ok(Scale(w, n))
  }

  /** `calculate_weighted_set_volume(line)`: split on `" x "`, take the text between the
      first and second colon of the first piece, take the word after its first space as the weight,
      strip the second piece and read it as the rep count, multiply. */
  function WeightedSetVolume(line: string): (r: Result<Decimal>)
    ensures ':' !in Before(line, Times) ==> r == Err(ColonMissing)
    ensures After(line, Times).None? ==> r.Err?
    ensures r == Err(RepsSegmentMissing) ==> After(line, Times).None?
    ensures r.Ok? ==> ':' in Before(line, Times) && After(line, Times).Some?
  {
    var parts := Split(line, Times);
    var sets := Split(parts[0], ":");
    LacksChar(parts[0], ':');
    if |sets| < 2 then Err(ColonMissing)
    else
      var weight := Split(sets[1], " ");
      if |weight| < 2 then Err(WeightTokenMissing)
      else Convert(weight[1], if |parts| < 2 then None else Some(parts[1]))
  }

  /** The same parser stated field by field instead of by split-and-index: in the
      clause before the first `" x "`, take the text between the first colon and the
      next colon (or the clause's end); the weight is the word after its first space;
      the rep count is the text between the first and second `" x "`. It fails for want
      of a colon exactly when the clause has none, and it yields a volume only when the
      line has a rep piece. */
  function ReferenceVolume(line: string): (r: Result<Decimal>)
    ensures r == Err(ColonMissing) <==> After(Before(line, Times), ":").None?
    ensures r.Ok? ==> After(line, Times).Some?
  {
    match After(Before(line, Times), ":")
    case None => Err(ColonMissing)
    case Some(afterColon) =>
      match After(Before(afterColon, ":"), " ")
      case None => Err(WeightTokenMissing)
      case Some(afterSpace) =>
        var repsPiece :=
          match After(line, Times)
          case None => None
          case Some(rest) => Some(Before(rest, Times));
        Convert(Before(afterSpace, " "), repsPiece)
  }

  /** Split-and-index and field-by-field agree on every line. */
  lemma MatchesReference(line: string)
    ensures WeightedSetVolume(line) == ReferenceVolume(line)
  {
    var parts := Split(line, Times);
    var sets := Split(parts[0], ":");
    if |sets| >= 2 {
      var weight := Split(sets[1], " ");
    }
  }

  /** Once the three splits are known, the parser's result is the conversion of the
      weight word and the rep piece. */
  lemma ReadsFields(line: string, head: string, repsPiece: Option<string>, post: string, weightText: string)
    requires Split(line, Times)[0] == head
    requires |Split(line, Times)| >= 2 <==> repsPiece.Some?
    requires repsPiece.Some? ==> Split(line, Times)[1] == repsPiece.value
    requires |Split(head, ":")| >= 2 && Split(head, ":")[1] == post
    requires |Split(post, " ")| >= 2 && Split(post, " ")[1] == weightText
    ensures WeightedSetVolume(line) == Convert(weightText, repsPiece)
  {
  }

  /** On a line with a colon, one space, a weight token and then directly `" x "` (no
      unit), the parser reads the weight token and the rep text all the same: it never
      looks for the unit. */
  lemma UnitlessLine(setLabel: string, weightText: string, repsText: string)
    requires ':' !in setLabel && 'x' !in setLabel
    requires ':' !in weightText && 'x' !in weightText && ' ' !in weightText
    requires Lacks(repsText, Times)
    ensures WeightedSetVolume(setLabel + ": " + weightText + Times + repsText)
         == Convert(weightText, Some(repsText))
  {
    var post := " " + weightText;
    var head := setLabel + ":" + post;
    ColonThenWord(setLabel, weightText);
    TimesSplitsShaped(head, repsText);
    ColonSplitsHead(setLabel, post);
    SpaceThenWord(weightText);
    ReadsFields(setLabel + ": " + weightText + Times + repsText, head, Some(repsText), post, weightText);
  }

  /** `" W"` splits on single spaces into an empty word and `W`. */
  lemma SpaceThenWord(weightText: string)
    requires ' ' !in weightText
    ensures Split(" " + weightText, " ") == [[], weightText]
  {
    assert " " + weightText == [] + " " + weightText;
    WordThenSpace([], weightText);
    LacksChar(weightText, ' ');
    SplitWhole(weightText, " ");
  }

  lemma ColonThenWord(setLabel: string, weightText: string)
    ensures setLabel + ": " + weightText == setLabel + ":" + (" " + weightText)
  {
  }

  /** A line `<label>: <weight> <unit>` with no `" x "` reads its weight token and then
      has no rep piece. */
  lemma NoRepsSeparator(setLabel: string, weightText: string, unit: string)
    requires ':' !in setLabel && 'x' !in setLabel
    requires ':' !in weightText && 'x' !in weightText && ' ' !in weightText
    requires ':' !in unit && 'x' !in unit
    ensures WeightedSetVolume(setLabel + ": " + weightText + " " + unit)
         == Convert(weightText, None)
  {
    var post := " " + weightText + " " + unit;
    var line := setLabel + ":" + post;
    ColonSpace(setLabel, weightText, unit);
    assert Split(line, Times) == [line] by {
      assert 'x' !in line;
      XFreeLacksTimes(line);
      SplitWhole(line, Times);
    }
    assert Split(line, ":") == [setLabel, post] by {
      ColonSplitsHead(setLabel, post);
    }
    assert |Split(post, " ")| >= 2 && Split(post, " ")[1] == weightText by {
      SpaceSplitsPost(weightText, unit);
    }
    ReadsFields(line, line, None, post, weightText);
  }

  /** A line whose clause has no colon fails at `sets[1]` whatever else it holds. */
  lemma NoColon(line: string)
    requires ':' !in line
    ensures WeightedSetVolume(line) == Err(ColonMissing)
  {
    assert ':' !in Before(line, Times);
  }

  /** A weight that reads but a rep piece that does not fails with the stripped rep text. */
  lemma ConvertRejectsReps(kilos: string, w: Decimal, piece: string)
    requires ParseDecimal(kilos) == Some(w)
    requires ParseInt(Strip(piece)) == None
    ensures Convert(kilos, Some(piece)) == Err(RepsNotInteger(Strip(piece)))
  {
  }

  /** Whatever follows a second `" x "` after an `x`-free clause and rep text is ignored. */
  lemma ExtraSegment(head: string, repsText: string, extra: string)
    requires 'x' !in head && 'x' !in repsText
    ensures WeightedSetVolume(head + Times + repsText + Times + extra)
         == WeightedSetVolume(head + Times + repsText)
  {
    var rest := repsText + (Times + extra);
    var line := head + Times + rest;
    Regroup(head + Times, repsText, Times, extra);
    RegroupTail(repsText, Times, extra);
    XFreeHoldsNoTimes(head);
    assert head + Times[..|Times| - 1] == head + " x";
    SplitFirst(head, Times, rest);
    XFreeHoldsNoTimes(repsText);
    assert repsText + Times[..|Times| - 1] == repsText + " x";
    SplitFirst(repsText, Times, extra);
    OnlyFirstRepsSegment(line);
  }

  // ---------------------------------------------------------------- well-formed lines

  /** A line of the shape `<label>: <weight> <unit> x <reps>`. */
  function Shaped(setLabel: string, weightText: string, unit: string, repsText: string): string {
    setLabel + ": " + weightText + " " + unit + Times + repsText
  }

  /** A log line `Set N : W kg x R`, followed by `tail` (a newline, say). */
  function SetLine(setNumber: nat, weightText: string, reps: nat, tail: string): string {
    Shaped("Set " + NatText(setNumber) + " ", weightText, "kg", NatText(reps) + tail)
  }

  /** On a line shaped `<label>: <weight> <unit> x <reps>`, the parser reads exactly the
      weight token and the rep text: the weight fails first, then the reps, and
      otherwise the volume is their product. */
  lemma {:induction false} ShapedLine(setLabel: string, weightText: string, unit: string, repsText: string)
    requires ':' !in setLabel && 'x' !in setLabel
    requires ':' !in weightText && 'x' !in weightText && ' ' !in weightText
    requires ':' !in unit && 'x' !in unit
    requires Lacks(repsText, Times)
    ensures WeightedSetVolume(Shaped(setLabel, weightText, unit, repsText))
         == Convert(weightText, Some(repsText))
  {
    var post := " " + weightText + " " + unit;
    var head := setLabel + ":" + post;
    ShapedSplits(setLabel, weightText, unit, repsText);
    assert |Split(post, " ")| >= 2 && Split(post, " ")[1] == weightText by {
      SpaceSplitsPost(weightText, unit);
    }
    ReadsFields(Shaped(setLabel, weightText, unit, repsText), head, Some(repsText), post, weightText);
  }

  /** The first two splits of a shaped line: on `" x "` into the clause and the rep
      text, and the clause on `:` into the label and the text after the colon. */
  lemma ShapedSplits(setLabel: string, weightText: string, unit: string, repsText: string)
    requires ':' !in setLabel && 'x' !in setLabel
    requires ':' !in weightText && 'x' !in weightText
    requires ':' !in unit && 'x' !in unit
    requires Lacks(repsText, Times)
    ensures Split(Shaped(setLabel, weightText, unit, repsText), Times)
         == [setLabel + ":" + (" " + weightText + " " + unit), repsText]
    ensures Split(setLabel + ":" + (" " + weightText + " " + unit), ":")
         == [setLabel, " " + weightText + " " + unit]
  {
    var post := " " + weightText + " " + unit;
    var head := setLabel + ":" + post;
    ColonSpace(setLabel, weightText, unit);
    assert Shaped(setLabel, weightText, unit, repsText) == head + Times + repsText;
    TimesSplitsShaped(head, repsText);
    ColonSplitsHead(setLabel, post);
  }

  lemma TimesSplitsShaped(head: string, repsText: string)
    requires 'x' !in head
    requires Lacks(repsText, Times)
    ensures Split(head + Times + repsText, Times) == [head, repsText]
  {
    XFreeHoldsNoTimes(head);
    assert head + Times[..|Times| - 1] == head + " x";
    SplitFirst(head, Times, repsText);
    SplitWhole(repsText, Times);
  }

  lemma ColonSplitsHead(setLabel: string, post: string)
    requires ':' !in setLabel && ':' !in post
    ensures Split(setLabel + ":" + post, ":") == [setLabel, post]
  {
    LacksChar(setLabel, ':');
    assert setLabel + ":"[..0] == setLabel;
    SplitFirst(setLabel, ":", post);
    LacksChar(post, ':');
    SplitWhole(post, ":");
  }

  lemma SpaceSplitsPost(weightText: string, unit: string)
    requires ' ' !in weightText
    ensures |Split(" " + weightText + " " + unit, " ")| >= 2
    ensures Split(" " + weightText + " " + unit, " ")[1] == weightText
  {
    assert " " + weightText + " " + unit == [] + " " + (weightText + " " + unit);
    SplitFirst([], " ", weightText + " " + unit);
    LacksChar(weightText, ' ');
    assert weightText + " "[..0] == weightText;
    SplitFirst(weightText, " ", unit);
  }

  /** A word free of spaces, then a space, is the first piece of a split on spaces. */
  lemma WordThenSpace(word: string, rest: string)
    requires ' ' !in word
    ensures Split(word + " " + rest, " ") == [word] + Split(rest, " ")
  {
    LacksChar(word, ' ');
    assert word + " "[..0] == word;
    SplitFirst(word, " ", rest);
  }

  /** `" W U"` splits on single spaces into an empty word, `W` and `U`. */
  lemma SpaceWords(weightText: string, unit: string)
    requires ' ' !in weightText && ' ' !in unit
    ensures Split(" " + weightText + " " + unit, " ") == [[], weightText, unit]
  {
    var tail := weightText + " " + unit;
    SpaceRegroup(weightText, unit);
    WordThenSpace([], tail);
    TwoWords(weightText, unit);
  }

  lemma SpaceRegroup(weightText: string, unit: string)
    ensures " " + weightText + " " + unit == [] + " " + (weightText + " " + unit)
  {
  }

  /** `"W U"` splits on single spaces into `W` and `U`. */
  lemma TwoWords(weightText: string, unit: string)
    requires ' ' !in weightText && ' ' !in unit
    ensures Split(weightText + " " + unit, " ") == [weightText, unit]
  {
    WordThenSpace(weightText, unit);
    LacksChar(unit, ' ');
    SplitWhole(unit, " ");
  }

  /** Both conversions succeeding gives their product. */
  lemma ConvertReads(kilos: string, w: Decimal, piece: string, n: int)
    requires ParseDecimal(kilos) == Some(w)
    requires ParseInt(Strip(piece)) == Some(n)
    ensures Convert(kilos, Some(piece)) == Ok(Scale(w, n))
  {
  }

  /** Text without an `x` holds no `" x "`. */
  lemma XFreeLacksTimes(s: string)
    requires 'x' !in s
    ensures Lacks(s, Times)
  {
    forall i | 0 <= i <= |s|
      ensures !OccursAt(s, Times, i)
    {
      if i + 3 <= |s| {
        assert s[i..i + 3][1] == s[i + 1] != 'x';
      }
    }
  }

  lemma DigitsAreNotSeparators(s: string)
    requires AllDigits(s)
    ensures ':' !in s && 'x' !in s && ' ' !in s
  {
  }

  /** The label `Set N ` holds neither a colon nor an `x`. */
  lemma SetLabelClean(setNumber: nat)
    ensures ':' !in "Set " + NatText(setNumber) + " " && 'x' !in "Set " + NatText(setNumber) + " "
  {
    DigitsAreNotSeparators(NatText(setNumber));
  }

  lemma Regroup(a: string, b: string, c: string, d: string)
    ensures a + (b + (c + d)) == a + b + c + d
  {
  }

  lemma RegroupTail(a: string, b: string, c: string)
    ensures a + (b + c) == a + b + c
  {
  }

  /** The rep count `R` followed by whitespace strips to `R` and reads as `R`. */
  lemma RepsPieceReads(reps: nat, tail: string)
    requires AllSpace(tail)
    ensures ParseInt(Strip(NatText(reps) + tail)) == Some(reps)
  {
    NumeralTailStrips(reps, tail);
    NatTextReads(reps);
  }

  lemma NumeralTailStrips(reps: nat, tail: string)
    requires AllSpace(tail)
    ensures Strip(NatText(reps) + tail) == NatText(reps)
  {
    IntTextUnpadded(reps);
    StripTrailing(NatText(reps), tail);
  }

  /** On a `Set N : <weight> kg x R` line the parser reads that weight token and the
      rep piece `R` plus its trailing whitespace. */
  lemma SetLineFields(setNumber: nat, weightText: string, reps: nat, tail: string)
    requires ':' !in weightText && 'x' !in weightText && ' ' !in weightText
    requires AllSpace(tail)
    ensures WeightedSetVolume(SetLine(setNumber, weightText, reps, tail))
         == Convert(weightText, Some(NatText(reps) + tail))
  {
    SetLabelClean(setNumber);
    DigitsAreNotSeparators(NatText(reps));
    assert 'x' !in NatText(reps) + tail;
    XFreeLacksTimes(NatText(reps) + tail);
    ShapedLine("Set " + NatText(setNumber) + " ", weightText, "kg", NatText(reps) + tail);
  }

  /** `str.strip()` and `float()` disagree about U+001C..U+001F: they are whitespace to
      the first but not to the second, so a weight token ending in one of them, as in
      `Set 1 : 40\x1c kg x 9`, fails at `float`. */
  lemma WeightWithSeparatorRejected(setNumber: nat, kilos: nat, c: char, reps: nat, tail: string)
    requires 0x1C <= c as int <= 0x1F
    requires AllSpace(tail)
    ensures WeightedSetVolume(SetLine(setNumber, NatText(kilos) + [c], reps, tail))
         == Err(WeightNotNumber(NatText(kilos) + [c]))
  {
    var weightText := NatText(kilos) + [c];
    DigitsAreNotSeparators(NatText(kilos));
    assert ':' !in weightText && 'x' !in weightText && ' ' !in weightText;
    SetLineFields(setNumber, weightText, reps, tail);
    NumeralThenSeparator(kilos, c);
  }

  /** The intermediate values on a `Set N : W kg x R` line: the first split leaves the
      clause `Set N : W kg` with no trailing space (the `" x "` consumes it) and the rep
      text with its tail; the colon split gives `Set N ` and ` W kg`; the space split
      gives an empty word, the weight and the unit. */
  lemma SetLineSplits(setNumber: nat, weightText: string, reps: nat, tail: string)
    requires ':' !in weightText && 'x' !in weightText && ' ' !in weightText
    requires AllSpace(tail)
    ensures var setLabel := "Set " + NatText(setNumber) + " ";
            Split(SetLine(setNumber, weightText, reps, tail), Times)
              == [setLabel + ":" + (" " + weightText + " " + "kg"), NatText(reps) + tail]
    ensures var setLabel := "Set " + NatText(setNumber) + " ";
            Split(setLabel + ":" + (" " + weightText + " " + "kg"), ":") == [setLabel, " " + weightText + " " + "kg"]
    ensures Split(" " + weightText + " " + "kg", " ") == [[], weightText, "kg"]
  {
    SetLabelClean(setNumber);
    DigitsAreNotSeparators(NatText(reps));
    assert 'x' !in NatText(reps) + tail;
    XFreeLacksTimes(NatText(reps) + tail);
    ShapedSplits("Set " + NatText(setNumber) + " ", weightText, "kg", NatText(reps) + tail);
    SpaceWords(weightText, "kg");
  }

  lemma ColonSpace(setLabel: string, weightText: string, unit: string)
    ensures setLabel + ": " + weightText + " " + unit == setLabel + ":" + (" " + weightText + " " + unit)
  {
  }

  /** A well-formed line `Set N : W kg x R`, with or without a trailing newline or other
      whitespace, yields the volume `W * R` for a whole number of kilos `W`. */
  lemma WellFormedWholeKilos(setNumber: nat, kilos: nat, reps: nat, tail: string)
    requires AllSpace(tail)
    ensures WeightedSetVolume(SetLine(setNumber, NatText(kilos), reps, tail))
         == Ok(Decimal(kilos * reps, 0))
  {
    DigitsAreNotSeparators(NatText(kilos));
    SetLineFields(setNumber, NatText(kilos), reps, tail);
    ParseDecimalWhole(kilos);
    RepsPieceReads(reps, tail);
    ConvertReads(NatText(kilos), Decimal(kilos, 0), NatText(reps) + tail, reps);
  }

  /** A weight with a decimal point, `Set N : W.F kg x R`, yields the fixed-point weight
      `W.F` scaled by `R`; `FractionalWeightValue` gives the weight's value. */
  lemma WellFormedFractionalKilos(setNumber: nat, whole: string, fraction: string, reps: nat, tail: string)
    requires |whole| >= 1 && AllDigits(whole) && AllDigits(fraction)
    requires AllSpace(tail)
    ensures AllDigits(whole + fraction)
    ensures WeightedSetVolume(SetLine(setNumber, whole + "." + fraction, reps, tail))
         == Ok(Scale(Decimal(DigitsValue(whole + fraction), |fraction|), reps))
  {
    var weightText := whole + "." + fraction;
    DigitsAreNotSeparators(whole);
    DigitsAreNotSeparators(fraction);
    assert ':' !in weightText && 'x' !in weightText && ' ' !in weightText;
    SetLineFields(setNumber, weightText, reps, tail);
    ParseDecimalFraction(whole, fraction);
    RepsPieceReads(reps, tail);
    ConvertReads(weightText, Decimal(DigitsValue(whole + fraction), |fraction|), NatText(reps) + tail, reps);
  }

  /** The weight `W.F` read from a line is worth `W + F / 10^|F|`; `Scale` keeps the
      volume at that worth times the reps. */
  lemma FractionalWeightValue(whole: string, fraction: string)
    requires AllDigits(whole) && AllDigits(fraction)
    ensures AllDigits(whole + fraction)
    ensures Value(Decimal(DigitsValue(whole + fraction), |fraction|))
         == DigitsValue(whole) as real + DigitsValue(fraction) as real / Pow10(|fraction|) as real
  {
    DigitsValueAppend(whole, fraction);
    FixedValue(DigitsValue(whole), DigitsValue(fraction), |fraction|);
  }

  /** `Set N : W x R`, the unit left out, still yields `W * R`. */
  lemma UnitlessWholeKilos(setNumber: nat, kilos: nat, reps: nat)
    ensures WeightedSetVolume("Set " + NatText(setNumber) + " " + ": " + NatText(kilos) + Times + NatText(reps))
         == Ok(Decimal(kilos * reps, 0))
  {
    var setLabel := "Set " + NatText(setNumber) + " ";
    DigitsAreNotSeparators(NatText(setNumber));
    DigitsAreNotSeparators(NatText(kilos));
    DigitsAreNotSeparators(NatText(reps));
    XFreeLacksTimes(NatText(reps));
    UnitlessLine(setLabel, NatText(kilos), NatText(reps));
    ParseDecimalWhole(kilos);
    RepsPieceReads(reps, "");
    assert NatText(reps) + "" == NatText(reps);
    ConvertReads(NatText(kilos), Decimal(kilos, 0), NatText(reps), reps);
  }

  /** `Set N : W <unit>` with no `" x "` reads its weight, then fails at `parts[1]`. */
  lemma MissingRepsWholeKilos(setNumber: nat, kilos: nat, unit: string)
    requires ':' !in unit && 'x' !in unit
    ensures WeightedSetVolume("Set " + NatText(setNumber) + " " + ": " + NatText(kilos) + " " + unit)
         == Err(RepsSegmentMissing)
  {
    SetLabelClean(setNumber);
    DigitsAreNotSeparators(NatText(kilos));
    NoRepsSeparator("Set " + NatText(setNumber) + " ", NatText(kilos), unit);
    ConvertWithoutReps(kilos);
  }

  /** A whole weight with no rep piece fails at `parts[1]`. */
  lemma ConvertWithoutReps(kilos: nat)
    ensures Convert(NatText(kilos), None) == Err(RepsSegmentMissing)
  {
    ParseDecimalWhole(kilos);
  }

  /** A whole weight followed by a rep piece that is a word (unpadded, starting with
      neither a sign nor a digit) and whitespace fails at `int` with that word. */
  lemma ConvertRejectsWord(kilos: nat, word: string, tail: string)
    requires |word| >= 1 && !IsSpace(word[0]) && !IsSpace(word[|word| - 1])
    requires !IsDigit(word[0]) && word[0] != '+' && word[0] != '-'
    requires AllSpace(tail)
    ensures Convert(NatText(kilos), Some(word + tail)) == Err(RepsNotInteger(word))
  {
    ParseDecimalWhole(kilos);
    StripTrailing(word, tail);
    ParseIntRejectsWord(word);
    ConvertRejectsReps(NatText(kilos), Decimal(kilos, 0), word + tail);
  }

  /** `Set N : W kg x <word><tail>`, where the word is unpadded and starts with neither
      a sign nor a digit and the tail is whitespace, fails at `int` with that word. */
  lemma RepsWordRejected(setNumber: nat, kilos: nat, word: string, tail: string)
    requires |word| >= 1 && !IsSpace(word[0]) && !IsSpace(word[|word| - 1])
    requires !IsDigit(word[0]) && word[0] != '+' && word[0] != '-'
    requires Lacks(word + tail, Times) && AllSpace(tail)
    ensures WeightedSetVolume(Shaped("Set " + NatText(setNumber) + " ", NatText(kilos), "kg", word + tail))
         == Err(RepsNotInteger(word))
  {
    SetLabelClean(setNumber);
    DigitsAreNotSeparators(NatText(kilos));
    ShapedLine("Set " + NatText(setNumber) + " ", NatText(kilos), "kg", word + tail);
    ConvertRejectsWord(kilos, word, tail);
  }

  /** On a `Set N : W kg x R` line, a second `" x "` and all after it change nothing. */
  lemma ExtraSegmentSetLine(setNumber: nat, weightText: string, reps: nat, extra: string)
    requires 'x' !in weightText
    ensures WeightedSetVolume(SetLine(setNumber, weightText, reps, Times + extra))
         == WeightedSetVolume(SetLine(setNumber, weightText, reps, ""))
  {
    var setLabel := "Set " + NatText(setNumber) + " ";
    var repsText := NatText(reps);
    SetLabelClean(setNumber);
    DigitsAreNotSeparators(repsText);
    var head := setLabel + ": " + weightText + " " + "kg";
    assert 'x' !in head;
    ExtraSegment(head, repsText, extra);
    Regroup(head + Times, repsText, Times, extra);
    assert repsText + "" == repsText;
  }

  /** `Set N : W kg x R x <extra>` still yields `W * R`: the second `" x "` and all
      after it are dropped. */
  lemma ExtraSegmentWholeKilos(setNumber: nat, kilos: nat, reps: nat, extra: string)
    ensures WeightedSetVolume(SetLine(setNumber, NatText(kilos), reps, Times + extra))
         == Ok(Decimal(kilos * reps, 0))
  {
    DigitsAreNotSeparators(NatText(kilos));
    ExtraSegmentSetLine(setNumber, NatText(kilos), reps, extra);
    WellFormedWholeKilos(setNumber, kilos, reps, "");
  }

  /** Whatever follows a second `" x "` is never read: the line parses as its text up to
      there. */
  lemma OnlyFirstRepsSegment(line: string)
    requires After(line, Times).Some?
    ensures var clause, rest := Before(line, Times), After(line, Times).value;
            WeightedSetVolume(line) == WeightedSetVolume(clause + Times + Before(rest, Times))
  {
    var clause, rest := Before(line, Times), After(line, Times).value;
    var reps := Before(rest, Times);
    ClauseThenTimes(line);
    SplitFirst(clause, Times, reps);
    BeforeLacks(rest, Times);
    SplitWhole(reps, Times);
    MatchesReference(line);
    MatchesReference(clause + Times + reps);
  }

  /** The clause before the first `" x "`, followed by `" x"`, holds no `" x "`. */
  lemma ClauseThenTimes(line: string)
    requires After(line, Times).Some?
    ensures Lacks(Before(line, Times) + Times[..2], Times)
  {
    var clause := Before(line, Times);
    var i := Find(line, Times).value;
    assert clause == line[..i];
    assert clause + Times[..2] == line[..i + 2] by {
      assert line[i..i + 3] == Times;
      assert line[..i + 2] == line[..i] + line[i..i + 3][..2];
    }
    forall j | 0 <= j <= |clause| + 2
      ensures !OccursAt(clause + Times[..2], Times, j)
    {
      OccursAtSlice(line, Times, 0, i + 2, j);
    }
  }

  /** No `" x "` begins before the two spaces, so the clause keeps the label, the colon
      and the first space, and the rest of it is still the line's text. */
  lemma ColonClause(setLabel: string, rest: string) returns (afterColon: string)
    requires ':' !in setLabel && 'x' !in setLabel
    ensures var clause := Before(setLabel + ":  " + rest, Times);
            && |clause| >= |setLabel| + 2
            && clause == setLabel + ":" + afterColon
            && afterColon[0] == ' '
            && (|afterColon| >= 2 ==> afterColon[1] == ' ')
  {
    var line := setLabel + ":  " + rest;
    var n := |setLabel|;
    assert line[n] == ':' && line[n + 1] == ' ' && line[n + 2] == ' ';
    forall j | 0 <= j < n + 2
      ensures !OccursAt(line, Times, j)
    {
      if j + 1 < n {
        assert line[j + 1] == setLabel[j + 1];
      }
      if j + 3 <= |line| {
        assert line[j..j + 3][1] == line[j + 1] != 'x';
      }
    }
    BeforeKeepsPrefix(line, Times, n + 2);
    var clause := Before(line, Times);
    assert clause[..n] == setLabel by {
      assert line[..n] == setLabel;
    }
    afterColon := clause[n + 1..];
    assert clause == clause[..n] + [clause[n]] + afterColon;
  }

  /** Text after the colon that is one space, or starts with two, has an empty word
      after its first space. */
  lemma EmptyWeightWord(afterColon: string)
    requires |afterColon| >= 1 && afterColon[0] == ' '
    requires |afterColon| >= 2 ==> afterColon[1] == ' '
    ensures After(Before(afterColon, ":"), " ").Some?
    ensures Before(After(Before(afterColon, ":"), " ").value, " ") == []
  {
    var postColon := Before(afterColon, ":");
    assert !OccursAt(afterColon, ":", 0) by {
      assert afterColon[0..1] == " ";
    }
    BeforeKeepsPrefix(afterColon, ":", 1);
    var afterSpace := postColon[1..];
    assert postColon == [] + " " + afterSpace;
    SplitFirst([], " ", afterSpace);
    if afterSpace != [] {
      assert afterSpace[0] == ' ';
      assert afterSpace[0..1] == " ";
      BeforeAtStart(afterSpace, " ");
    }
  }

  /** Two spaces after the colon put an empty word where the weight belongs, so
      `float('')` fails, whatever follows. */
  lemma DoubleSpaceAfterColon(setLabel: string, rest: string)
    requires ':' !in setLabel && 'x' !in setLabel
    ensures WeightedSetVolume(setLabel + ":  " + rest) == Err(WeightNotNumber(""))
  {
    var line := setLabel + ":  " + rest;
    var afterColon := ColonClause(setLabel, rest);
    LacksChar(setLabel, ':');
    assert setLabel + ":"[..0] == setLabel;
    SplitFirst(setLabel, ":", afterColon);
    EmptyWeightWord(afterColon);
    assert AllBlank(NumeralBlanks, []);
    MatchesReference(line);
  }
}

=== FILE: set_volume_examples.dfy ===
/** The weighted-set parser on the concrete lines its documentation and comments use,
    and on the malformed lines that show each way it stops. */
module SetVolumeExamples {
  import opened Options
  import opened PyStr
  import opened Numerals
  import opened SetVolume

  /** The docstring's line, `Set 1 : 40 kg x 9`, has volume 360. */
  lemma DocstringExample()
    ensures WeightedSetVolume("Set 1 : 40 kg x 9") == Ok(Decimal(360, 0))
  {
    assert NatText(40) == "40" && NatText(1) == "1" && NatText(9) == "9";
    assert SetLine(1, NatText(40), 9, "") == "Set 1 : 40 kg x 9";
    WellFormedWholeKilos(1, 40, 9, "");
  }

  /** The commented line `Set 3 : 30 kg x 14\n` has volume 420: the trailing newline
      is stripped from the rep piece. */
  lemma CommentedExample()
    ensures WeightedSetVolume("Set 3 : 30 kg x 14\n") == Ok(Decimal(420, 0))
  {
    assert NatText(30) == "30";
    assert NatText(3) == "3";
    assert NatText(14) == "14";
    assert SetLine(3, NatText(30), 14, "\n") == "Set 3 : 30 kg x 14\n";
    WellFormedWholeKilos(3, 30, 14, "\n");
  }

  /** The parser never looks for the unit: `Set 1 : 40 x 10` still has volume 400. */
  lemma UnitNotChecked()
    ensures WeightedSetVolume("Set 1 : 40 x 10") == Ok(Decimal(400, 0))
  {
    assert NatText(1) == "1" && NatText(40) == "40" && NatText(10) == "10";
    assert "Set " + NatText(1) + " " + ": " + NatText(40) + Times + NatText(10) == "Set 1 : 40 x 10";
    UnitlessWholeKilos(1, 40, 10);
  }

  /** U+001C after the weight: `strip()` would remove it, but `float` does not skip it,
      so `float('40\x1c')` fails. */
  lemma SeparatorAfterWeight()
    ensures WeightedSetVolume("Set 1 : 40\U{1C} kg x 9") == Err(WeightNotNumber("40\U{1C}"))
  {
    assert NatText(40) == "40" && NatText(1) == "1" && NatText(9) == "9";
    assert NatText(40) + ['\U{1C}'] == "40\U{1C}";
    assert SetLine(1, NatText(40) + ['\U{1C}'], 9, "") == "Set 1 : 40\U{1C} kg x 9";
    WeightWithSeparatorRejected(1, 40, '\U{1C}', 9, "");
  }

  /** U+001C after the rep count is different: the rep piece goes through `strip()`
      first, which removes it, so the line still has volume 360. */
  lemma SeparatorAfterReps()
    ensures WeightedSetVolume("Set 1 : 40 kg x 9\U{1C}") == Ok(Decimal(360, 0))
  {
    assert NatText(40) == "40" && NatText(1) == "1" && NatText(9) == "9";
    assert AllSpace("\U{1C}");
    assert SetLine(1, NatText(40), 9, "\U{1C}") == "Set 1 : 40 kg x 9\U{1C}";
    WellFormedWholeKilos(1, 40, 9, "\U{1C}");
  }

  /** A line with no `" x "` reads its weight and then fails for want of a rep piece. */
  lemma MissingRepsSeparator()
    ensures WeightedSetVolume("Set 1 : 40 kg\n") == Err(RepsSegmentMissing)
  {
    assert NatText(1) == "1" && NatText(40) == "40";
    assert "Set " + NatText(1) + " " + ": " + NatText(40) + " " + "kg\n" == "Set 1 : 40 kg\n";
    MissingRepsWholeKilos(1, 40, "kg\n");
  }

  /** A line with no colon fails at `sets[1]`, before the reps are read. */
  lemma MissingColon()
    ensures WeightedSetVolume("Set 1 - 40 kg x nine") == Err(ColonMissing)
  {
    NoColon("Set 1 - 40 kg x nine");
  }

  /** A colon with nothing after it leaves no word for the weight. */
  lemma MissingWeightToken()
    ensures WeightedSetVolume("Set 1 :") == Err(WeightTokenMissing)
  {
    var line := "Set 1 :";
    XFreeLacksTimes(line);
    SplitWhole(line, Times);
    assert line == "Set 1 " + ":" + "";
    ColonSplitsHead("Set 1 ", "");
    SplitWhole("", " ");
  }

  /** A rep count that is not an integer fails at `int(reps)`, after the newline is
      stripped. */
  lemma RepsNotANumber()
    ensures WeightedSetVolume("Set 1 : 40 kg x nine\n") == Err(RepsNotInteger("nine"))
  {
    XFreeLacksTimes("nine\n");
    assert "nine" + "\n" == "nine\n";
    assert NatText(1) == "1" && NatText(40) == "40";
    assert Shaped("Set " + NatText(1) + " ", NatText(40), "kg", "nine" + "\n") == "Set 1 : 40 kg x nine\n";
    RepsWordRejected(1, 40, "nine", "\n");
  }

  /** Two spaces after the colon: `float('')` fails. */
  lemma TwoSpacesAfterColon()
    ensures WeightedSetVolume("Set 1 :  40 kg x 9") == Err(WeightNotNumber(""))
  {
    assert "Set 1 :  40 kg x 9" == "Set 1 " + ":  " + "40 kg x 9";
    DoubleSpaceAfterColon("Set 1 ", "40 kg x 9");
  }

  /** Text after a second `" x "` is ignored: `Set 1 : 40 kg x 9 x 3` has volume 360. */
  lemma SecondSeparatorIgnored()
    ensures WeightedSetVolume("Set 1 : 40 kg x 9 x 3") == Ok(Decimal(360, 0))
  {
    assert NatText(1) == "1" && NatText(40) == "40" && NatText(9) == "9";
    assert SetLine(1, NatText(40), 9, Times + "3") == "Set 1 : 40 kg x 9 x 3";
    ExtraSegmentWholeKilos(1, 40, 9, "3");
  }
}
